=== FILE: README.md ===
# Open in GitHub: a Dafny model of the URL logic

This Obsidian plugin adds a ribbon button and two menu items (file menu and editor menu) that open the vault's Git repository on GitHub. With `openFile` set, it opens the page of the active note on the current branch instead. Everything it decides comes from a few string transformations in `main.ts`. This project models those transformations as pure Dafny functions and proves what they compute:

- **Remote-URL normalisation** (`convertToGitHubUrl`), module `RemoteUrl`.
  - `https://` remotes lose one trailing `.git`.
  - `git@host:path` remotes become `https://host/path`.
  - Anything else is refused (`null`, modelled as `None`).
- **Finding the `origin` URL in `.git/config`**, module `GitConfig`.
  - This is the regular expression `\[remote "origin"\][\s\S]*?url\s*=\s*(.*)` followed by `trim`.
  - It is written as an explicit scan.
  - It is characterised by the leftmost match the expression reports.
- **Reading the branch from `.git/HEAD`**, module `GitHead`: `trim`, then `ref: refs/heads/(.*)`.
- **The action behind them** (`openGitHub`, with `getGitHubRepoUrl` and `getCurrentBranch`), module `OpenGitHub`.
  - The pure decision `Dispatch` maps the lookups' results to an `Action`: open a URL, or show a notice.
  - `Run` maps a snapshot of the vault's files to the exact sequence of notices, browser windows and error-log entries `openGitHub` produces. It includes the exception path taken when `HEAD` cannot be read.
- **JavaScript string semantics**, module `Text`:
  - `startsWith`.
  - `replace` with a string pattern and a replacement holding no `$` (first occurrence only).
  - `replace(/\.git$/, '')`.
  - The `\s` and `.` classes.
  - `trim`.

  White space is modelled exactly: ECMAScript's WhiteSpace and LineTerminator characters, which are the characters `\s` matches and `trim` removes. `.` excludes exactly the four line terminators.

`Option` (module `Wrappers`) stands for the source's `string | null`.

The model follows the code, including where a reader might expect otherwise:

- Only `https://` and `git@` remotes are accepted. `http://` and `ssh://` remotes are refused.
- The host is never checked, so remotes on any host pass through, although the comment at main.ts:141 speaks of a GitHub URL.
- The search for the `url` key is not confined to the `origin` section. A `url` in a later section, or a `pushurl` key, is taken.
- Each failed check inside the repository lookup (main.ts:112-133) shows its own notice, then "Could not determine GitHub repository URL.". A remote the conversion refuses shows only that second notice, and a config that cannot be read shows "Failed to open GitHub repository." and logs the error.

## Model

| member | source | states |
|---|---|---|
| RemoteUrl.ConvertToGitHubUrl | main.ts:143-155 | The result is `None` exactly when the remote starts with neither `https://` nor `git@`. Every result starts with `https://`. An `https://` remote comes back unchanged, or with one `.git` removed exactly when it ends in `.git`. |
| RemoteUrl.HttpsRemote | main.ts:145-146 | `https://host/path` becomes `https://host/path` less one trailing `.git`, for any host. |
| RemoteUrl.SshToHttps | main.ts:151 | The three chained replacements turn `git@` plus `rest` into `https://` plus `rest`, with its first `:` made `/` and one trailing `.git` removed. |
| RemoteUrl.SshRemoteRest | main.ts:149-151 | Any `git@` remote converts to `https://` followed by the remainder, with its first `:` replaced by `/` and one trailing `.git` removed. |
| RemoteUrl.SshRemote | main.ts:149-151 | `git@host:path` with no `:` in the host becomes `https://host/path` less one trailing `.git`. |
| RemoteUrl.ColonAfterHost | main.ts:151 | In `host:path` the `:` replaced is the one after the host, even when the path holds more colons. |
| RemoteUrl.SameRepositorySameUrl | main.ts:143-155 | The SSH and HTTPS spellings of one repository, each with or without `.git`, give the same web URL. |
| RemoteUrl.NormalisedIsFixedPoint | main.ts:145-146 | Converting a result that no longer ends in `.git` gives it back: normalising is then idempotent. |
| RemoteUrl.OneSuffixPerPass | main.ts:146 | A path ending in `.git.git` loses only one `.git` per conversion, so normalising is not idempotent in general. |
| RemoteUrl.RefusedRemotes | main.ts:154 | `http://…`, `ssh://…` and the empty string are refused. |
| RemoteUrl.StripGitAfterSlash | main.ts:146 | Removing a trailing `.git` never reaches back across a `/`. |
| RemoteUrl.StripAppendedGit | main.ts:146 | Removing the `.git` that ends `p + ".git"` gives `p`. |
| Text.IsLineTerminator | main.ts:130 | Exactly the four ECMAScript LineTerminator characters (LF, CR, U+2028, U+2029): the characters the regular-expression `.` does not match. |
| Text.IsSpace | main.ts:130-136 | Exactly ECMAScript WhiteSpace ∪ LineTerminator: the characters `\s` matches and `trim` strips. |
| Text.StartsWith | main.ts:145-150 | `startsWith`: the prefix is an initial segment of the text. |
| Text.EndsWith | main.ts:146-151 | The suffix is the final segment of the text: what `\.git$` without the `m` flag tests, anchored at the end of the input only. |
| Text.IndexOf | main.ts:130 | The search for a literal returns the leftmost occurrence at or after the start position, or `None` when there is none. |
| Text.IndexOfFinds | main.ts:189 | The leftmost occurrence is what the search returns. |
| Text.IndexOfAfterPrefix | main.ts:151 | A search skips a prefix in which the pattern does not start: it finds the first occurrence in the rest, shifted by the prefix's length. |
| Text.ReplaceFirst | main.ts:151 | For a replacement holding no `$`, a string `replace` replaces only the leftmost occurrence of the pattern, and returns the text unchanged when the pattern does not occur. |
| Text.ReplaceFirstAfterPrefix | main.ts:151 | A replacement skips over a prefix in which the pattern does not start. |
| Text.StripSuffix | main.ts:146 | `replace(/\.git$/, '')` removes the suffix exactly when the text ends with it, and changes nothing otherwise. |
| Text.SkipSpaces | main.ts:130 | `\s*` consumes the maximal run of white space, line breaks included. |
| Text.LineEnd | main.ts:130 | `(.*)` runs to the first line terminator or the end. |
| Text.SkipSpacesAt | main.ts:130 | The scan for `\s*` stops exactly at the first character that is not white space. |
| Text.LineEndAt | main.ts:130 | The scan for `(.*)` stops exactly at the first line terminator. |
| Text.Trim | main.ts:136 | `trim` returns a slice with only white space before and after it, and which neither starts nor ends with white space. |
| Text.TrimPadded | main.ts:136 | Trimming white space around an already trimmed string gives that string back, which determines `trim` uniquely. |
| Text.TrimUnique | main.ts:186 | Any slice meeting the characterisation of `trim` is its result. |
| Text.TrimIdempotent | main.ts:186 | Trimming twice is trimming once. |
| GitConfig.AfterKey | main.ts:130 | Where `url\s*` stops: past a maximal run of white space. |
| GitConfig.UrlKeyAt | main.ts:130 | `url`, then the longest run of white space, then `=`: exactly where `url\s*=` matches, because `=` is not white space and the greedy `\s*` never has to give any back. |
| GitConfig.FindUrlKey | main.ts:130 | The lazy `[\s\S]*?` stops at the leftmost position from which `url\s*=` matches, or finds none. |
| GitConfig.FindUrlKeyFinds | main.ts:130 | The scan for the key returns the first position from its start at which `url\s*=` matches. |
| GitConfig.ValueStart | main.ts:130 | The capture starts after `=` and a maximal run of white space, which can cross line breaks. |
| GitConfig.Capture | main.ts:130 | The captured group holds no line terminator and reaches a line terminator or the end of the text. |
| GitConfig.HasMatch | main.ts:130-131 | The regular expression matches exactly when some `[remote "origin"]` is followed, at or after its end, by a position where `url\s*=` matches. |
| GitConfig.LeftmostMatch | main.ts:130-131 | The match reported: the first `[remote "origin"]`, and the first position after it where `url\s*=` matches. |
| GitConfig.OriginUrl | main.ts:129-136 | The result is `None` exactly when no `[remote "origin"]` is followed by a `url\s*=`. Every result is one trimmed line. |
| GitConfig.OriginUrlIsLeftmostMatch | main.ts:130-136 | The result is the trimmed capture of the leftmost match: the first header, and the first key after it. |
| GitConfig.OriginUrlHasLeftmostMatch | main.ts:130-136 | Every result comes from such a leftmost match. |
| GitConfig.KeyValueAt | main.ts:130 | A key `url`, white space, `=`, white space and a value form a match whose capture is the value's line. |
| GitConfig.HeaderAfterPlainText | main.ts:130 | A header after text with no `[` is the first header. |
| GitConfig.KeyLine | main.ts:130 | After any text, the line `url <ws>=<ws><value>` is a key whose capture is the value. |
| GitConfig.LayoutMatch | main.ts:130 | In a config laid out as header, gap, key line, the leftmost match is that header and that key. |
| GitConfig.OriginUrlOfLayout | main.ts:129-136 | Such a config yields the value of the key line. |
| GitConfig.NoKeyWithoutU | main.ts:130 | Text without a `u` holds no `url` key. |
| GitConfig.KeyInLaterSection | main.ts:130 | A `url` key in a later section is still taken: the search is not limited to the `origin` section. |
| GitConfig.NoKeyBeforePush | main.ts:130 | Before the `url` that completes `pushurl` there is no match. |
| GitConfig.PushUrlIsTaken | main.ts:130 | A `pushurl = …` line matches, since `url` may end a longer key. |
| GitHead.BranchAt | main.ts:189-191 | The capture of `ref: refs\/heads\/(.*)`: starting at the leftmost `ref: refs/heads/`, the text after it up to the first line terminator or the end. |
| GitHead.MatchBranch | main.ts:189-194 | The result is `None` exactly when `ref: refs/heads/` does not occur. Otherwise it is the rest of the line after its leftmost occurrence. |
| GitHead.BranchOfHead | main.ts:186-194 | The same on the trimmed contents of `HEAD`. |
| GitHead.BranchAtIsResult | main.ts:189-191 | The branch the characterisation allows is the result. |
| GitHead.RestOfLine | main.ts:189 | The rest of the line is any piece of one line that reaches a line break or the end. |
| GitHead.BranchOfRefLine | main.ts:186-191 | `ref: refs/heads/<name>` with surrounding white space names `<name>`, slashes included. An empty name is possible. |
| GitHead.DetachedHeadHasNoBranch | main.ts:186-194 | A bare commit hash names no branch. |
| OpenGitHub.Truthy | main.ts:82-87 | JavaScript truthiness of a string or `null`: present and non-empty. |
| OpenGitHub.BranchOrDefault | main.ts:87-89 | The branch is never empty: a missing or empty branch becomes `main`, and any other is kept. |
| OpenGitHub.FileUrl | main.ts:90 | The file URL is the repository URL followed by `/blob/`, the branch, `/` and the path, with nothing escaped. |
| OpenGitHub.FileUrlInjective | main.ts:90 | For branch names without `/`, the file URL determines the branch and the path. |
| OpenGitHub.SlashedBranchIsAmbiguous | main.ts:90 | Because nothing is escaped, branch `a/b` with path `p` gives the same URL as branch `a` with path `b/p`. |
| OpenGitHub.Dispatch | main.ts:82-99 | A URL is opened exactly when the repository URL is truthy and, if a file was asked for, the active path is truthy. It is the repository URL without `openFile` and the file URL with it. Otherwise the notice names the missing piece. |
| OpenGitHub.Shown | main.ts:112-133 | The lookup's notices are displayed one by one, in order, as notice effects. |
| OpenGitHub.Perform | main.ts:91-99 | An action is carried out as the matching window or notice. |
| OpenGitHub.RepoUrl | main.ts:110-138 | The lookup throws exactly when a present config cannot be read. A URL comes with no notice and starts with `https://`. At most one notice is shown. Without a notice, the result is the conversion of the config's `origin` URL. |
| OpenGitHub.CurrentBranch | main.ts:172-195 | The lookup throws exactly when the checks pass and `HEAD` cannot be read. Without a notice, the result is the branch in `HEAD`. A notice comes with no branch. |
| OpenGitHub.Run | main.ts:79-105 | Every run has an effect. A run that opens a window does nothing else, and the window's URL starts with `https://`. |
| OpenGitHub.OpensRepository | main.ts:96 | Without `openFile`, a configured vault opens the repository URL and nothing else. |
| OpenGitHub.OpensFile | main.ts:84-91 | With `openFile` and an active path, the file's page on the current branch, or on `main`, is opened and nothing else. |
| OpenGitHub.MissingHeadFails | main.ts:101-103 | A missing or unreadable `HEAD` makes `openGitHub` show the failure notice and log the error. |
| OpenGitHub.NoActiveFile | main.ts:92-94 | With `openFile` but no active path, only "Not found file relative path!" is shown. |
| OpenGitHub.LookupFailures | main.ts:110-133 | Each failed check shows its own notice, then "Could not determine GitHub repository URL.". An unreadable config shows the failure notice and logs the error. |
| OpenGitHub.UnsupportedRemote | main.ts:98-99 | A refused remote shows only "Could not determine GitHub repository URL.". |
| OpenGitHub.FailureIsReported | main.ts:79-105 | A run that opens no window shows one or two effects, starting with a notice. A logged error comes only after the failure notice. |
| OpenGitHub.RunAgreesWithDispatch | main.ts:81-99 | When neither lookup throws, the last effect of a run carries out the `Dispatch` decision on the lookups' results. |
| OpenGitHub.SshRemoteInConfig | main.ts:129-136 | A config whose `origin` section holds `url = git@host:path.git` yields that remote. |
| RemoteUrl.SshRemoteWithGit | main.ts:149-151 | `git@host:path.git` converts to `https://host/path`. |
| OpenGitHub.SshRemoteOpensFilePage | main.ts:79-105 | From files to browser: an SSH `origin` and a `HEAD` on a branch, with white space around the reference line, open `https://host/path/blob/branch/file`. |
| OpenGitHub.DetachedHeadOpensMain | main.ts:87-90 | On a detached `HEAD` the file's page is opened on `main`. |
| OpenGitHub.SshRemoteIsOneLine | main.ts:136 | An SSH remote is one trimmed line, so the config lookup returns it whole. |

## Left out

- The Obsidian host glue is UI registration against an API outside this model: `onload`, the icon, the ribbon button, the file-menu and editor-menu handlers, and the settings. The file-menu handler receives the clicked file but does not pass it on; `openGitHub` uses the active file; the model takes the active file's path as an input.
- `getVaultBasePath` is left out. It is modelled only by its result, `Vault.basePath`.
- `fs.existsSync`, `fs.readFileSync` and `path.join` are I/O. They are modelled by a snapshot of the vault (`Vault`): whether `.git` exists, and for `config` and `HEAD` whether each is missing, unreadable or readable with some text.
- The source reads the file system twice, once per lookup. The model reads one snapshot, so a change between the two reads is not modelled.
- The contents of the errors that are thrown, and what `console.error` prints, are left out. A thrown error appears only as the `LogError` effect.
- `window.open`'s `_blank` target and `Notice`'s display are left out. They appear only as `OpenWindow` and `Notice` effects.
- The model works on Unicode scalar values where JavaScript strings are UTF-16. Every character the matching looks at is in the Basic Multilingual Plane, so the results are the same.
- `openFile` is optional; the ribbon button (main.ts:39) leaves it `undefined`, which `if (openFile)` treats like `false`, so it is modelled as `false`.
- Text.ReplaceFirst: `$` substitution patterns in the replacement (`$$`, `$&`, `` $` ``, `$'`) are not modelled; the replacements at main.ts:151 are `/` and `https://`, which hold none.
- The white-space set is ECMAScript's as of the Unicode version with U+180E outside category Zs.
- The `async`/`await` scheduling is left out. The steps of `openGitHub` are sequential in the model.

=== FILE: git_config.dfy ===
/** Finding the URL of the `origin` remote in the text of `.git/config`, as
    the regular expression `\[remote "origin"\][\s\S]*?url\s*=\s*(.*)` does
    it, followed by a trim of the captured group. */
module GitConfig {
  import opened Wrappers
  import opened Text

  const OriginHeader: string := "[remote \"origin\"]"
  const UrlKey: string := "url"

  /** The index just past the white space that follows the `url` starting
      at `p`: where `url\s*` leaves off. */
  function AfterKey(s: string, p: nat): (e: nat)
    requires OccursAt(s, UrlKey, p)
    ensures p + |UrlKey| <= e <= |s|
    ensures forall k :: p + |UrlKey| <= k < e ==> IsSpace(s[k])
    ensures e == |s| || !IsSpace(s[e])
  {
    SkipSpaces(s, p + |UrlKey|)
  }

  /** `url\s*=` matches at `p`. The `url` may end a longer key such as
      `pushurl`, and the white space may include line breaks. Because the
      `=` cannot be white space, the greedy `\s*` gives back nothing. */
  predicate UrlKeyAt(s: string, p: nat) {
    OccursAt(s, UrlKey, p) && AfterKey(s, p) < |s| && s[AfterKey(s, p)] == '='
  }

  /** The leftmost `p >= from` at which `url\s*=` matches: the position the
      lazy `[\s\S]*?` stops at. */
  function FindUrlKey(s: string, from: nat): (r: Option<nat>)
    ensures r.Some? ==> from <= r.value && UrlKeyAt(s, r.value)
    ensures r.Some? ==> forall q :: from <= q < r.value ==> !UrlKeyAt(s, q)
    ensures r.None? ==> forall q :: from <= q ==> !UrlKeyAt(s, q)
    decreases |s| - from
  {
    if |s| < from + |UrlKey| then None
    else if UrlKeyAt(s, from) then Some(from)
    else FindUrlKey(s, from + 1)
  }

  /** Where the captured group starts: past the `=` and the greedy `\s*`
      after it, which runs across line breaks. */
  function ValueStart(s: string, p: nat): (v: nat)
    requires UrlKeyAt(s, p)
    ensures AfterKey(s, p) < v <= |s|
    ensures forall k :: AfterKey(s, p) < k < v ==> IsSpace(s[k])
    ensures v == |s| || !IsSpace(s[v])
  {
    SkipSpaces(s, AfterKey(s, p) + 1)
  }

  /** The captured group `(.*)` for a key at `p`: the rest of the line from
      `ValueStart`. */
  function Capture(s: string, p: nat): (c: string)
    requires UrlKeyAt(s, p)
    ensures NoLineTerminator(c)
    ensures ValueStart(s, p) + |c| <= |s|
    ensures c == s[ValueStart(s, p)..ValueStart(s, p) + |c|]
    ensures ValueStart(s, p) + |c| == |s| || IsLineTerminator(s[ValueStart(s, p) + |c|])
  {
    var v := ValueStart(s, p);
    s[v..LineEnd(s, v)]
  }

  /** The regular expression has a match: some `[remote "origin"]` is
      followed, at or after its end, by `url\s*=`. */
  ghost predicate HasMatch(s: string) {
    exists h: nat, p: nat ::
      OccursAt(s, OriginHeader, h) && h + |OriginHeader| <= p && UrlKeyAt(s, p)
  }

  /** The match the regular expression reports: it starts at the first
      `[remote "origin"]` and its `url` key is the first one after it. */
  ghost predicate LeftmostMatch(s: string, h: nat, p: nat) {
    && FirstOccurrence(s, OriginHeader, h)
    && h + |OriginHeader| <= p
    && UrlKeyAt(s, p)
    && forall q :: h + |OriginHeader| <= q < p ==> !UrlKeyAt(s, q)
  }

  /** The trimmed URL of the `origin` remote, or `None` when the regular
      expression does not match. The search for the key is not confined to
      the `origin` section. */
  function OriginUrl(config: string): (r: Option<string>)
    ensures r.None? <==> !HasMatch(config)
    ensures r.Some? ==> NoLineTerminator(r.value) && Trimmed(r.value)
  {
    match IndexOf(config, OriginHeader, 0)
    case None => None
    case Some(h) =>
      match FindUrlKey(config, h + |OriginHeader|)
      case None =>
        assert !HasMatch(config) by {
          forall h': nat, p: nat | OccursAt(config, OriginHeader, h') && h' + |OriginHeader| <= p
            ensures !UrlKeyAt(config, p)
          {
          }
        }
        None
      case Some(p) =>
        var url := Trim(Capture(config, p));
        CaptureTrimmedHasNoBreak(Capture(config, p));
        Some(url)
  }

  /** Trimming a piece of one line leaves a piece of one line. */
  lemma CaptureTrimmedHasNoBreak(c: string)
    requires NoLineTerminator(c)
    ensures NoLineTerminator(Trim(c)) && Trimmed(Trim(c))
  {
    var i :| TrimmedAt(c, Trim(c), i);
    forall k | 0 <= k < |Trim(c)| ensures !IsLineTerminator(Trim(c)[k]) {
      assert Trim(c)[k] == c[i + k];
    }
  }

  /** The search finds a key that is the first one from `from` on. */
  lemma FindUrlKeyFinds(s: string, from: nat, p: nat)
    requires from <= p && UrlKeyAt(s, p)
    requires forall q :: from <= q < p ==> !UrlKeyAt(s, q)
    ensures FindUrlKey(s, from) == Some(p)
  {
  }

  /** The result is the trimmed capture of the leftmost match, and the
      leftmost match determines the result. */
  lemma OriginUrlIsLeftmostMatch(config: string, h: nat, p: nat)
    requires LeftmostMatch(config, h, p)
    ensures OriginUrl(config) == Some(Trim(Capture(config, p)))
  {
    IndexOfFinds(config, OriginHeader, h);
    FindUrlKeyFinds(config, h + |OriginHeader|, p);
  }

  /** Every result comes from a leftmost match. */
  lemma OriginUrlHasLeftmostMatch(config: string)
    requires OriginUrl(config).Some?
    ensures exists h: nat, p: nat :: LeftmostMatch(config, h, p)
                                    && OriginUrl(config) == Some(Trim(Capture(config, p)))
  {
    var h := IndexOf(config, OriginHeader, 0).value;
    var p := FindUrlKey(config, h + |OriginHeader|).value;
    assert LeftmostMatch(config, h, p);
  }

  /** A configuration text laid out as: text before the header, the
      `[remote "origin"]` header, text up to the key, the key `url`, white
      space, `=`, white space, the value, and the rest. */
  function Layout(pre: string, gap: string, sp1: string, sp2: string, value: string, post: string): string {
    pre + OriginHeader + gap + UrlKey + sp1 + "=" + sp2 + value + post
  }

  /** `url\s*=\s*(.*)` matches at `p` when the key is followed by the white
      space `[p + 3, e)`, an `=` at `e`, the white space `(e, v)`, and a
      non-blank start of value at `v`; its capture runs `n` characters to
      the line break or the end. */
  lemma KeyValueAt(s: string, p: nat, e: nat, v: nat, n: nat)
    requires OccursAt(s, UrlKey, p)
    requires p + |UrlKey| <= e < v && v + n <= |s|
    requires forall k :: p + |UrlKey| <= k < e ==> IsSpace(s[k])
    requires s[e] == '='
    requires forall k :: e < k < v ==> IsSpace(s[k])
    requires v == |s| || !IsSpace(s[v])
    requires forall k :: v <= k < v + n ==> !IsLineTerminator(s[k])
    requires v + n == |s| || IsLineTerminator(s[v + n])
    ensures UrlKeyAt(s, p) && Capture(s, p) == s[v..v + n]
  {
    assert AfterKey(s, p) == e by {
      SkipSpacesAt(s, p + |UrlKey|, e);
    }
    assert ValueStart(s, p) == v by {
      SkipSpacesAt(s, e + 1, v);
    }
    assert LineEnd(s, v) == v + n by {
      LineEndAt(s, v, v + n);
    }
  }

  /** A `[remote "origin"]` after text that opens no section is the first
      one. */
  lemma HeaderAfterPlainText(pre: string, rest: string)
    requires '[' !in pre
    ensures FirstOccurrence(pre + OriginHeader + rest, OriginHeader, |pre|)
  {
    var s := pre + OriginHeader + rest;
    assert s[|pre|..|pre| + |OriginHeader|] == OriginHeader;
    forall j | 0 <= j < |pre| ensures !OccursAt(s, OriginHeader, j) {
      assert s[j] == pre[j];
      if j + |OriginHeader| <= |s| {
        assert s[j..j + |OriginHeader|][0] == s[j];
      }
    }
  }

  /** After any text `a`, the line `url <sp1>=<sp2><value>` followed by a line
      break or the end is a key whose capture is `value`. */
  lemma KeyLine(a: string, sp1: string, sp2: string, value: string, post: string)
    requires AllSpace(sp1) && AllSpace(sp2)
    requires value != [] && NoLineTerminator(value) && !IsSpace(value[0])
    requires post == [] || IsLineTerminator(post[0])
    ensures UrlKeyAt(a + UrlKey + sp1 + "=" + sp2 + value + post, |a|)
    ensures Capture(a + UrlKey + sp1 + "=" + sp2 + value + post, |a|) == value
  {
    var s := a + UrlKey + sp1 + "=" + sp2 + value + post;
    var p := |a|;
    var e := p + |UrlKey| + |sp1|;
    var v := e + 1 + |sp2|;
    var n := |value|;
    assert s[p..p + |UrlKey|] == UrlKey;
    assert forall k :: p + |UrlKey| <= k < e ==> s[k] == sp1[k - p - |UrlKey|];
    assert s[e] == '=';
    assert forall k :: e < k < v ==> s[k] == sp2[k - e - 1];
    assert forall k :: v <= k < v + n ==> s[k] == value[k - v];
    assert post != [] ==> s[v + n] == post[0];
    KeyValueAt(s, p, e, v, n);
    assert s[v..v + n] == value;
  }

  /** In such a layout the leftmost match is the header after `pre` and the
      key after `gap`, and its capture is the value. */
  lemma LayoutMatch(pre: string, gap: string, sp1: string, sp2: string, value: string, post: string)
    requires '[' !in pre
    requires forall q :: |pre| + |OriginHeader| <= q < |pre| + |OriginHeader| + |gap|
                         ==> !UrlKeyAt(Layout(pre, gap, sp1, sp2, value, post), q)
    requires AllSpace(sp1) && AllSpace(sp2)
    requires value != [] && NoLineTerminator(value) && !IsSpace(value[0])
    requires post == [] || IsLineTerminator(post[0])
    ensures LeftmostMatch(Layout(pre, gap, sp1, sp2, value, post), |pre|, |pre + OriginHeader + gap|)
    ensures Capture(Layout(pre, gap, sp1, sp2, value, post), |pre + OriginHeader + gap|) == value
  {
    var s := Layout(pre, gap, sp1, sp2, value, post);
    var a := pre + OriginHeader + gap;
    var rest := gap + UrlKey + sp1 + "=" + sp2 + value + post;
    assert FirstOccurrence(s, OriginHeader, |pre|) by {
      assert s == pre + OriginHeader + rest;
      HeaderAfterPlainText(pre, rest);
    }
    assert UrlKeyAt(s, |a|) && Capture(s, |a|) == value by {
      assert s == a + UrlKey + sp1 + "=" + sp2 + value + post;
      KeyLine(a, sp1, sp2, value, post);
    }
  }

  /** The value of the first `url` key after the first `[remote "origin"]`
      is the result, whatever section the key sits in, provided nothing
      before the header opens a section and no `url\s*=` occurs in between. */
  lemma OriginUrlOfLayout(pre: string, gap: string, sp1: string, sp2: string, value: string, post: string)
    requires '[' !in pre
    requires forall q :: |pre| + |OriginHeader| <= q < |pre| + |OriginHeader| + |gap|
                         ==> !UrlKeyAt(Layout(pre, gap, sp1, sp2, value, post), q)
    requires AllSpace(sp1) && AllSpace(sp2)
    requires value != [] && NoLineTerminator(value) && Trimmed(value)
    requires post == [] || IsLineTerminator(post[0])
    ensures OriginUrl(Layout(pre, gap, sp1, sp2, value, post)) == Some(value)
  {
    var s := Layout(pre, gap, sp1, sp2, value, post);
    var p := |pre + OriginHeader + gap|;
    LayoutMatch(pre, gap, sp1, sp2, value, post);
    assert Trim(value) == value by {
      assert value == [] + value + [];
      TrimPadded([], value, []);
    }
    OriginUrlIsLeftmostMatch(s, |pre|, p);
  }

  /** Text with no `u` in it holds no `url` key. */
  lemma NoKeyWithoutU(s: string, lo: nat, hi: nat)
    requires hi <= |s|
    requires forall k :: lo <= k < hi ==> s[k] != 'u'
    ensures forall q :: lo <= q < hi ==> !UrlKeyAt(s, q)
  {
    forall q | lo <= q < hi ensures !UrlKeyAt(s, q) {
      if q + |UrlKey| <= |s| {
        assert s[q..q + |UrlKey|][0] == s[q];
      }
    }
  }

  /** The search for the key runs past the end of the `origin` section: a
      `url` key in any later section, after text with no `u`, is taken. */
  lemma KeyInLaterSection(pre: string, gap: string, sp1: string, sp2: string, value: string, post: string)
    requires '[' !in pre && 'u' !in gap
    requires AllSpace(sp1) && AllSpace(sp2)
    requires value != [] && NoLineTerminator(value) && Trimmed(value)
    requires post == [] || IsLineTerminator(post[0])
    ensures OriginUrl(Layout(pre, gap, sp1, sp2, value, post)) == Some(value)
  {
    var s := Layout(pre, gap, sp1, sp2, value, post);
    var lo := |pre| + |OriginHeader|;
    assert forall k :: lo <= k < lo + |gap| ==> s[k] != 'u' by {
      assert s == pre + OriginHeader + gap + (UrlKey + sp1 + "=" + sp2 + value + post);
      assert forall k :: lo <= k < lo + |gap| ==> s[k] == gap[k - lo];
    }
    NoKeyWithoutU(s, lo, lo + |gap|);
    OriginUrlOfLayout(pre, gap, sp1, sp2, value, post);
  }

  /** A `pushurl` key matches too, since `url` may end a longer key. */
  lemma PushUrlIsTaken(pre: string, gap: string, sp1: string, sp2: string, value: string, post: string)
    requires '[' !in pre && 'u' !in gap
    requires AllSpace(sp1) && AllSpace(sp2)
    requires value != [] && NoLineTerminator(value) && Trimmed(value)
    requires post == [] || IsLineTerminator(post[0])
    ensures OriginUrl(Layout(pre, gap + "push", sp1, sp2, value, post)) == Some(value)
  {
    var s := Layout(pre, gap + "push", sp1, sp2, value, post);
    var lo := |pre| + |OriginHeader|;
    assert forall k :: lo <= k < lo + |gap| + 4 ==> s[k] == (gap + "push")[k - lo] by {
      assert s == pre + OriginHeader + (gap + "push") + (UrlKey + sp1 + "=" + sp2 + value + post);
    }
    NoKeyBeforePush(s, lo, lo + |gap|);
    OriginUrlOfLayout(pre, gap + "push", sp1, sp2, value, post);
  }

  /** Text with no `u` followed by `push` holds no `url` key before the `url`
      that completes `pushurl`. */
  lemma NoKeyBeforePush(s: string, lo: nat, m: nat)
    requires lo <= m && m + 4 <= |s|
    requires forall k :: lo <= k < m ==> s[k] != 'u'
    requires s[m] == 'p' && s[m + 1] == 'u' && s[m + 2] == 's' && s[m + 3] == 'h'
    ensures forall q :: lo <= q < m + 4 ==> !UrlKeyAt(s, q)
  {
    NoKeyWithoutU(s, lo, m + 1);
    assert !UrlKeyAt(s, m + 1) by {
      if m + 1 + |UrlKey| <= |s| {
        assert s[m + 1..m + 1 + |UrlKey|][1] == s[m + 2];
      }
    }
    NoKeyWithoutU(s, m + 2, m + 4);
  }
}

=== FILE: git_head.dfy ===
/** Reading the current branch out of the text of `.git/HEAD`: the text is
    trimmed and searched with `ref: refs/heads/(.*)`, whose group is the rest
    of the line after the leftmost `ref: refs/heads/`. */
module GitHead {
  import opened Wrappers
  import opened Text

  const HeadsPrefix: string := "ref: refs/heads/"

  /** `b` is what the group captures when the leftmost `ref: refs/heads/` of
      `t` starts at `i`: the rest of that line. */
  ghost predicate BranchAt(t: string, i: int, b: string) {
    && FirstOccurrence(t, HeadsPrefix, i)
    && i + |HeadsPrefix| + |b| <= |t|
    && t[i + |HeadsPrefix|..i + |HeadsPrefix| + |b|] == b
    && NoLineTerminator(b)
    && (i + |HeadsPrefix| + |b| == |t| || IsLineTerminator(t[i + |HeadsPrefix| + |b|]))
  }

  /** What `ref: refs/heads/(.*)` captures in `t`, or `None` when it does
      not match. */
  function MatchBranch(t: string): (r: Option<string>)
    ensures r.None? <==> forall j :: !OccursAt(t, HeadsPrefix, j)
    ensures r.Some? ==> exists i :: BranchAt(t, i, r.value)
  {
    match IndexOf(t, HeadsPrefix, 0)
    case None => None
    case Some(i) =>
      var b := t[i + |HeadsPrefix|..LineEnd(t, i + |HeadsPrefix|)];
      assert BranchAt(t, i, b);
      Some(b)
  }

  /** The branch named by the contents of `HEAD`, or `None` (the source's
      `null`) when the trimmed contents hold no `ref: refs/heads/`. The
      branch may be empty. */
  function BranchOfHead(head: string): (r: Option<string>)
    ensures r.None? <==> forall j :: !OccursAt(Trim(head), HeadsPrefix, j)
    ensures r.Some? ==> exists i :: BranchAt(Trim(head), i, r.value)
  {
    MatchBranch(Trim(head))
  }

  /** Any capture the characterisation allows is the result: the branch is
      determined by `BranchAt`. */
  lemma BranchAtIsResult(t: string, i: int, b: string)
    requires BranchAt(t, i, b)
    ensures MatchBranch(t) == Some(b)
  {
    assert IndexOf(t, HeadsPrefix, 0) == Some(i) by {
      IndexOfFinds(t, HeadsPrefix, i);
    }
    RestOfLine(t, i + |HeadsPrefix|, b);
  }

  /** The rest of the line from `k` is `b` when `b` is a piece of one line
      that reaches a line break or the end. */
  lemma RestOfLine(t: string, k: nat, b: string)
    requires k + |b| <= |t| && t[k..k + |b|] == b && NoLineTerminator(b)
    requires k + |b| == |t| || IsLineTerminator(t[k + |b|])
    ensures t[k..LineEnd(t, k)] == b
  {
    forall j | k <= j < k + |b| ensures !IsLineTerminator(t[j]) {
      assert t[j] == b[j - k];
    }
    LineEndAt(t, k, k + |b|);
  }

  /** A symbolic reference `ref: refs/heads/<name>`, with white space around
      it, names the branch `<name>`: `main`, `feature/login`, or the empty
      name when nothing follows the prefix. */
  lemma BranchOfRefLine(head: string, ws1: string, name: string, ws2: string)
    requires head == ws1 + HeadsPrefix + name + ws2
    requires AllSpace(ws1) && AllSpace(ws2)
    requires NoLineTerminator(name) && (name == [] || !IsSpace(name[|name| - 1]))
    ensures BranchOfHead(head) == Some(name)
  {
    var t := HeadsPrefix + name;
    assert Trim(head) == t by {
      assert Trimmed(t) by {
        assert t[0] == 'r';
        if name != [] {
          assert t[|t| - 1] == name[|name| - 1];
        }
      }
      assert head == ws1 + t + ws2;
      TrimPadded(ws1, t, ws2);
    }
    assert BranchAt(t, 0, name) by {
      assert t[..|HeadsPrefix|] == HeadsPrefix;
      assert t[|HeadsPrefix|..] == name;
    }
    BranchAtIsResult(t, 0, name);
  }

  predicate IsHexDigit(c: char) {
    '0' <= c <= '9' || 'a' <= c <= 'f'
  }

  /** A detached `HEAD` holds a bare commit hash and names no branch. */
  lemma DetachedHeadHasNoBranch(hash: string, ws: string)
    requires forall k :: 0 <= k < |hash| ==> IsHexDigit(hash[k])
    requires AllSpace(ws)
    ensures BranchOfHead(hash + ws) == None
  {
    var t := Trim(hash + ws);
    var i :| TrimmedAt(hash + ws, t, i);
    forall j | 0 <= j < |t| ensures t[j] != 'r' {
      assert t[j] == (hash + ws)[i + j];
    }
    forall j | 0 <= j && j + |HeadsPrefix| <= |t| ensures !OccursAt(t, HeadsPrefix, j) {
      assert t[j..j + |HeadsPrefix|][0] == t[j];
    }
  }
}

=== FILE: open_github.dfy ===
/** The action behind the ribbon button and the two menu items, which opens
    the repository, or the active file, on GitHub (`openGitHub`), with the two lookups it makes: the repository's web URL
    (`getGitHubRepoUrl`) and the current branch (`getCurrentBranch`). The
    vault's files are a snapshot taken once; the notices, the browser window
    and the error log are the effects it produces, in order. */
module OpenGitHub {
  import opened Wrappers
  import opened Text
  import opened RemoteUrl
  import opened GitConfig
  import opened GitHead

  const DesktopOnly: string := "This feature is only supported in the desktop app."
  const NoGitDir: string := "No .git directory found in the vault."
  const NoConfig: string := "No .git/config file found."
  const NoOrigin: string := "No remote \"origin\" found in .git/config."
  const NoRepoUrl: string := "Could not determine GitHub repository URL."
  const NoActivePath: string := "Not found file relative path!"
  const Failed: string := "Failed to open GitHub repository."
  const DefaultBranch: string := "main"

  /** A file of the vault as the action finds it: missing, present but
      unreadable (reading it throws), or readable with the given text. */
  datatype FileState = Missing | Unreadable | Readable(text: string)

  /** What the action can see of the vault. `basePath` is `None` off the
      desktop app, where the adapter has no base path. */
  datatype Vault = Vault(basePath: Option<string>, gitDir: bool, config: FileState, head: FileState)

  datatype Effect = Notice(message: string) | OpenWindow(url: string) | LogError

  /** How a lookup ends: it returns a value after showing some notices, or
      it throws. */
  datatype Outcome = Returned(notices: seq<string>, value: Option<string>) | Threw

  /** JavaScript truthiness of a string that may be `null`. */
  predicate Truthy(s: Option<string>) {
    s.Some? && s.value != []
  }

  /** The branch, with `main` in place of a missing or empty one. */
  function BranchOrDefault(branch: Option<string>): (b: string)
    ensures b != []
    ensures Truthy(branch) ==> b == branch.value
    ensures !Truthy(branch) ==> b == DefaultBranch
  {
    if Truthy(branch) then branch.value else DefaultBranch
  }

  /** The page of `path` on `branch` of the repository at `repo`; nothing is
      escaped. */
  function FileUrl(repo: string, branch: string, path: string): (u: string)
    ensures StartsWith(u, repo)
    ensures u[|repo|..] == "/blob/" + branch + "/" + path
  {
    repo + "/blob/" + branch + "/" + path
  }

  /** `getGitHubRepoUrl`: the checks for the desktop app, the `.git`
      directory and its `config` file each end the lookup with a notice;
      then the config is read, the `origin` URL found and converted. */
  function RepoUrl(v: Vault): (o: Outcome)
    ensures o.Threw? <==> Truthy(v.basePath) && v.gitDir && v.config == Unreadable
    ensures o.Returned? && o.value.Some? ==>
              && Truthy(v.basePath) && v.gitDir && v.config.Readable?
              && o.notices == [] && StartsWith(o.value.value, HttpsPrefix)
    ensures o.Returned? ==> |o.notices| <= 1
    ensures o.Returned? && o.notices == [] ==>
              && Truthy(v.basePath) && v.gitDir && v.config.Readable?
              && OriginUrl(v.config.text).Some?
              && o.value == ConvertToGitHubUrl(OriginUrl(v.config.text).value)
  {
    if !Truthy(v.basePath) then Returned([DesktopOnly], None)
    else if !v.gitDir then Returned([NoGitDir], None)
    else match v.config
      case Missing => Returned([NoConfig], None)
      case Unreadable => Threw
      case Readable(text) =>
        match OriginUrl(text)
        case None => Returned([NoOrigin], None)
        case Some(remote) => Returned([], ConvertToGitHubUrl(remote))
  }

  /** `getCurrentBranch`: the same two checks as `RepoUrl`, then `HEAD` is
      read without checking that it exists, so a missing or unreadable
      `HEAD` throws. */
  function CurrentBranch(v: Vault): (o: Outcome)
    ensures o.Threw? <==> Truthy(v.basePath) && v.gitDir && !v.head.Readable?
    ensures o.Returned? ==> (o.notices == [] <==> Truthy(v.basePath) && v.gitDir)
    ensures o.Returned? && o.notices == [] ==> o.value == BranchOfHead(v.head.text)
    ensures o.Returned? && o.notices != [] ==> |o.notices| == 1 && o.value.None?
  {
    if !Truthy(v.basePath) then Returned([DesktopOnly], None)
    else if !v.gitDir then Returned([NoGitDir], None)
    else match v.head
      case Readable(text) => Returned([], BranchOfHead(text))
      case _ => Threw
  }

  /** What the action decides once both lookups have returned: open a URL
      or show a notice. */
  datatype Action = OpenUrl(url: string) | ShowNotice(message: string)

  /** The decision of the action given the repository URL, whether the
      active file was asked for, the active file's path and the branch. */
  function Dispatch(repoUrl: Option<string>, openFile: bool, activePath: Option<string>,
                    branch: Option<string>): (a: Action)
    ensures a.OpenUrl? <==> Truthy(repoUrl) && (!openFile || Truthy(activePath))
    ensures a.OpenUrl? && !openFile ==> a.url == repoUrl.value
    ensures a.OpenUrl? && openFile ==>
              a.url == FileUrl(repoUrl.value, BranchOrDefault(branch), activePath.value)
    ensures a.ShowNotice? ==> a.message == (if Truthy(repoUrl) then NoActivePath else NoRepoUrl)
  {
    if !Truthy(repoUrl) then ShowNotice(NoRepoUrl)
    else if !openFile then OpenUrl(repoUrl.value)
    else if !Truthy(activePath) then ShowNotice(NoActivePath)
    else OpenUrl(FileUrl(repoUrl.value, BranchOrDefault(branch), activePath.value))
  }

  /** The effect that carries out an action. */
  function Perform(a: Action): (e: Effect)
    ensures e.OpenWindow? <==> a.OpenUrl?
    ensures e.OpenWindow? ==> e.url == a.url
    ensures e.Notice? ==> e.message == a.message
  {
    match a
    case OpenUrl(u) => OpenWindow(u)
    case ShowNotice(m) => Notice(m)
  }

  /** The notices `messages`, shown in order. */
  function Shown(messages: seq<string>): (effects: seq<Effect>)
    ensures |effects| == |messages|
    ensures forall k :: 0 <= k < |effects| ==> effects[k] == Notice(messages[k])
  {
    if messages == [] then [] else [Notice(messages[0])] + Shown(messages[1..])
  }

  /** Every notice, window and error log of one run of the action, in
      order. `activePath` is the path of the active file, `None` when there
      is none. */
  function Run(v: Vault, openFile: bool, activePath: Option<string>): (effects: seq<Effect>)
    ensures effects != []
    ensures forall k :: 0 <= k < |effects| && effects[k].OpenWindow? ==>
              effects == [effects[k]] && StartsWith(effects[k].url, HttpsPrefix)
  {
    var failed := [Notice(Failed), LogError];
    match RepoUrl(v)
    case Threw => failed
    case Returned(notices, repo) =>
      if !Truthy(repo) then Shown(notices) + [Notice(NoRepoUrl)]
      else
        assert Shown(notices) == [];
        if !openFile then Shown(notices) + [OpenWindow(repo.value)]
        else if !Truthy(activePath) then Shown(notices) + [Notice(NoActivePath)]
        else match CurrentBranch(v)
          case Threw => Shown(notices) + failed
          case Returned(more, branch) =>
            assert Shown(notices + more) == [];
            Shown(notices + more) + [OpenWindow(FileUrl(repo.value, BranchOrDefault(branch), activePath.value))]
  }

  /** A vault on the desktop app with a `.git` directory whose `config`
      names an `origin` remote in an accepted form. */
  ghost predicate Configured(v: Vault, u: string) {
    && Truthy(v.basePath) && v.gitDir && v.config.Readable?
    && OriginUrl(v.config.text).Some?
    && ConvertToGitHubUrl(OriginUrl(v.config.text).value) == Some(u)
  }

  /** Without `openFile`, a configured vault opens the repository's page and
      does nothing else. */
  lemma OpensRepository(v: Vault, u: string, activePath: Option<string>)
    requires Configured(v, u)
    ensures Run(v, false, activePath) == [OpenWindow(u)]
  {
    assert RepoUrl(v) == Returned([], Some(u));
  }

  /** With `openFile` and an active file, a configured vault with a readable
      `HEAD` opens the file's page on the current branch, or on `main` when
      `HEAD` names no branch or an empty one. */
  lemma OpensFile(v: Vault, u: string, path: string)
    requires Configured(v, u) && v.head.Readable? && path != []
    ensures Run(v, true, Some(path))
            == [OpenWindow(FileUrl(u, BranchOrDefault(BranchOfHead(v.head.text)), path))]
  {
    assert RepoUrl(v) == Returned([], Some(u));
    assert CurrentBranch(v) == Returned([], BranchOfHead(v.head.text));
  }

  /** With `openFile` and no readable `HEAD`, reading it throws: the action
      shows the failure notice and logs the error. */
  lemma MissingHeadFails(v: Vault, u: string, path: string)
    requires Configured(v, u) && !v.head.Readable? && path != []
    ensures Run(v, true, Some(path)) == [Notice(Failed), LogError]
  {
    assert RepoUrl(v) == Returned([], Some(u));
    assert CurrentBranch(v) == Threw;
  }

  /** With `openFile` but no active file, or one with an empty path, only a
      notice is shown. */
  lemma NoActiveFile(v: Vault, u: string, activePath: Option<string>)
    requires Configured(v, u) && !Truthy(activePath)
    ensures Run(v, true, activePath) == [Notice(NoActivePath)]
  {
    assert RepoUrl(v) == Returned([], Some(u));
  }

  /** Each failed check of the repository lookup shows its own notice and
      then the action's own, so a run can show two notices. */
  lemma LookupFailures(v: Vault, openFile: bool, activePath: Option<string>)
    ensures !Truthy(v.basePath) ==>
              Run(v, openFile, activePath) == [Notice(DesktopOnly), Notice(NoRepoUrl)]
    ensures Truthy(v.basePath) && !v.gitDir ==>
              Run(v, openFile, activePath) == [Notice(NoGitDir), Notice(NoRepoUrl)]
    ensures Truthy(v.basePath) && v.gitDir && v.config == Missing ==>
              Run(v, openFile, activePath) == [Notice(NoConfig), Notice(NoRepoUrl)]
    ensures Truthy(v.basePath) && v.gitDir && v.config == Unreadable ==>
              Run(v, openFile, activePath) == [Notice(Failed), LogError]
    ensures Truthy(v.basePath) && v.gitDir && v.config.Readable? && OriginUrl(v.config.text).None? ==>
              Run(v, openFile, activePath) == [Notice(NoOrigin), Notice(NoRepoUrl)]
  {
    var o := RepoUrl(v);
    if o.Returned? && o.notices != [] {
      assert Shown(o.notices) == [Notice(o.notices[0])];
    }
  }

  /** A remote in neither accepted form is refused silently by the
      conversion, so only the action's notice is shown. */
  lemma UnsupportedRemote(v: Vault, openFile: bool, activePath: Option<string>)
    requires Truthy(v.basePath) && v.gitDir && v.config.Readable?
    requires OriginUrl(v.config.text).Some?
    requires !StartsWith(OriginUrl(v.config.text).value, HttpsPrefix)
    requires !StartsWith(OriginUrl(v.config.text).value, SshPrefix)
    ensures Run(v, openFile, activePath) == [Notice(NoRepoUrl)]
  {
    assert RepoUrl(v) == Returned([], None);
  }

  /** A run that opens no window shows one or two notices first; a thrown
      error yields exactly the failure notice and the log entry. */
  lemma FailureIsReported(v: Vault, openFile: bool, activePath: Option<string>)
    requires forall k :: 0 <= k < |Run(v, openFile, activePath)| ==> !Run(v, openFile, activePath)[k].OpenWindow?
    ensures 1 <= |Run(v, openFile, activePath)| <= 2
    ensures Run(v, openFile, activePath)[0].Notice?
    ensures LogError in Run(v, openFile, activePath) ==> Run(v, openFile, activePath) == [Notice(Failed), LogError]
  {
    var o := RepoUrl(v);
    if o.Returned? && o.notices != [] {
      assert Shown(o.notices) == [Notice(o.notices[0])];
    }
  }

  /** An SSH remote `git@<host>:<path>.git` is a value the config lookup
      returns whole: one line, not starting or ending with white space. */
  lemma SshRemoteIsOneLine(host: string, path: string)
    requires NoLineTerminator(host) && NoLineTerminator(path)
    ensures NoLineTerminator(SshPrefix + host + ":" + path + GitSuffix)
    ensures Trimmed(SshPrefix + host + ":" + path + GitSuffix)
  {
    var r := SshPrefix + host + ":" + path + GitSuffix;
    forall k | 0 <= k < |r| ensures !IsLineTerminator(r[k]) {
      if k < |SshPrefix| {
        assert r[k] == SshPrefix[k];
      } else if k < |SshPrefix| + |host| {
        assert r[k] == host[k - |SshPrefix|];
      } else if k == |SshPrefix| + |host| {
        assert r[k] == ':';
      } else if k < |r| - |GitSuffix| {
        assert r[k] == path[k - |SshPrefix| - |host| - 1];
      } else {
        assert r[k] == GitSuffix[k - (|r| - |GitSuffix|)];
      }
    }
    assert r[0] == 'g' && r[|r| - 1] == 't';
  }

  /** A config whose first `origin` section is followed by the key line
      `url = git@<host>:<path>.git` yields that remote. */
  lemma SshRemoteInConfig(text: string, pre: string, gap: string, sp1: string, sp2: string, post: string,
                          host: string, path: string)
    requires text == Layout(pre, gap, sp1, sp2, SshPrefix + host + ":" + path + GitSuffix, post)
    requires '[' !in pre && 'u' !in gap && AllSpace(sp1) && AllSpace(sp2)
    requires post == [] || IsLineTerminator(post[0])
    requires NoLineTerminator(host) && NoLineTerminator(path)
    ensures OriginUrl(text) == Some(SshPrefix + host + ":" + path + GitSuffix)
  {
    SshRemoteIsOneLine(host, path);
    KeyInLaterSection(pre, gap, sp1, sp2, SshPrefix + host + ":" + path + GitSuffix, post);
  }

  /** From the vault's files to the browser: a config whose first `origin`
      section holds `url = git@<host>:<path>.git` and a `HEAD` on `<branch>`,
      with white space around it,
      open `https://<host>/<path>/blob/<branch>/<file>`. */
  lemma SshRemoteOpensFilePage(v: Vault, pre: string, gap: string, sp1: string, sp2: string, post: string,
                               host: string, path: string, ws1: string, branch: string, ws: string, file: string)
    requires Truthy(v.basePath) && v.gitDir && file != []
    requires v.config == Readable(Layout(pre, gap, sp1, sp2, SshPrefix + host + ":" + path + GitSuffix, post))
    requires '[' !in pre && 'u' !in gap && AllSpace(sp1) && AllSpace(sp2)
    requires post == [] || IsLineTerminator(post[0])
    requires ':' !in host && NoLineTerminator(host) && NoLineTerminator(path)
    requires v.head == Readable(ws1 + HeadsPrefix + branch + ws) && AllSpace(ws1) && AllSpace(ws)
    requires branch != [] && NoLineTerminator(branch) && !IsSpace(branch[|branch| - 1])
    ensures Run(v, true, Some(file))
            == [OpenWindow(HttpsPrefix + host + "/" + path + "/blob/" + branch + "/" + file)]
  {
    var u := HttpsPrefix + host + "/" + path;
    assert Configured(v, u) by {
      SshRemoteInConfig(v.config.text, pre, gap, sp1, sp2, post, host, path);
      SshRemoteWithGit(host, path);
    }
    assert BranchOrDefault(BranchOfHead(v.head.text)) == branch by {
      BranchOfRefLine(v.head.text, ws1, branch, ws);
    }
    OpensFile(v, u, file);
  }

  /** On a detached `HEAD` the file's page is opened on `main`. */
  lemma DetachedHeadOpensMain(v: Vault, u: string, hash: string, ws: string, path: string)
    requires Configured(v, u) && path != []
    requires v.head == Readable(hash + ws) && AllSpace(ws)
    requires forall k :: 0 <= k < |hash| ==> IsHexDigit(hash[k])
    ensures Run(v, true, Some(path)) == [OpenWindow(FileUrl(u, DefaultBranch, path))]
  {
    assert BranchOfHead(v.head.text) == None by {
      DetachedHeadHasNoBranch(hash, ws);
    }
    OpensFile(v, u, path);
  }

  /** When neither lookup throws, the last effect of a run carries out the
      decision `Dispatch` makes from the lookups' results. */
  lemma RunAgreesWithDispatch(v: Vault, openFile: bool, activePath: Option<string>)
    requires RepoUrl(v).Returned?
    requires Truthy(RepoUrl(v).value) && openFile && Truthy(activePath) ==> CurrentBranch(v).Returned?
    ensures Run(v, openFile, activePath)[|Run(v, openFile, activePath)| - 1]
            == Perform(Dispatch(RepoUrl(v).value, openFile, activePath,
                                if CurrentBranch(v).Returned? then CurrentBranch(v).value else None))
  {
    var repo := RepoUrl(v);
    var b := if CurrentBranch(v).Returned? then CurrentBranch(v).value else None;
    var last := Perform(Dispatch(repo.value, openFile, activePath, b));
    if Truthy(repo.value) && openFile && Truthy(activePath) {
      assert Run(v, openFile, activePath) == Shown(repo.notices + CurrentBranch(v).notices) + [last];
    } else {
      assert Run(v, openFile, activePath) == Shown(repo.notices) + [last];
    }
  }

  /** With branch names free of `/`, distinct branch and path pairs give
      distinct file URLs. */
  lemma FileUrlInjective(repo: string, b1: string, p1: string, b2: string, p2: string)
    requires '/' !in b1 && '/' !in b2
    requires FileUrl(repo, b1, p1) == FileUrl(repo, b2, p2)
    ensures b1 == b2 && p1 == p2
  {
    var t1 := b1 + "/" + p1;
    var t2 := b2 + "/" + p2;
    assert t1 == t2 by {
      assert FileUrl(repo, b1, p1)[|repo| + 6..] == t1;
      assert FileUrl(repo, b2, p2)[|repo| + 6..] == t2;
    }
    assert |b1| == |b2| by {
      SlashEndsBranch(b1, p1, b2, p2);
      SlashEndsBranch(b2, p2, b1, p1);
    }
    assert b1 == t1[..|b1|] && b2 == t2[..|b2|];
    assert p1 == t1[|b1| + 1..] && p2 == t2[|b2| + 1..];
  }

  /** The first `/` of `b + "/" + p` ends `b` when `b` has none. */
  lemma SlashEndsBranch(b1: string, p1: string, b2: string, p2: string)
    requires '/' !in b2 && b1 + "/" + p1 == b2 + "/" + p2
    ensures |b2| <= |b1|
  {
    assert (b1 + "/" + p1)[|b1|] == '/';
    assert forall k :: 0 <= k < |b2| ==> (b2 + "/" + p2)[k] == b2[k];
  }

  /** Because nothing is escaped, a branch containing `/` cannot be told
      apart from a shorter branch and a longer path. */
  lemma SlashedBranchIsAmbiguous(repo: string, a: string, b: string, path: string)
    ensures FileUrl(repo, a + "/" + b, path) == FileUrl(repo, a, b + "/" + path)
  {
  }
}

=== FILE: remote_url.dfy ===
/** Turning the URL of a Git remote into the web address of the repository
    (`convertToGitHubUrl`). */
module RemoteUrl {
  import opened Wrappers
  import opened Text

  const HttpsPrefix: string := "https://"
  const SshPrefix: string := "git@"
  const GitSuffix: string := ".git"

  /** The web URL for a remote, or `None` (the source's `null`) when the
      remote is neither an `https://` nor a `git@` URL. An `https://` remote
      only loses one trailing `.git`; a `git@host:path` remote has its first
      `:` turned into `/`, its leading `git@` into `https://`, and one
      trailing `.git` removed. The host is never inspected. */
  function ConvertToGitHubUrl(remote: string): (r: Option<string>)
    ensures r.None? <==> !StartsWith(remote, HttpsPrefix) && !StartsWith(remote, SshPrefix)
    ensures r.Some? ==> StartsWith(r.value, HttpsPrefix)
    ensures StartsWith(remote, HttpsPrefix) ==>
              r.Some? && (r.value == remote || r.value + GitSuffix == remote)
    ensures StartsWith(remote, HttpsPrefix) ==>
              (EndsWith(remote, GitSuffix) <==> r.value != remote)
  {
    if StartsWith(remote, HttpsPrefix) then
      StripGitKeepsPrefix(HttpsPrefix, remote);
      Some(StripSuffix(remote, GitSuffix))
    else if StartsWith(remote, SshPrefix) then
      assert remote == SshPrefix + remote[|SshPrefix|..];
      SshToHttps(remote[|SshPrefix|..]);
      Some(StripSuffix(ReplaceFirst(ReplaceFirst(remote, ":", "/"), SshPrefix, HttpsPrefix), GitSuffix))
    else
      None
  }

  /** Removing a trailing `.git` never reaches back past a `/`, so it only
      affects the part after the last slash it is given. */
  lemma StripGitAfterSlash(a: string, y: string)
    ensures StripSuffix(a + "/" + y, GitSuffix) == a + "/" + StripSuffix(y, GitSuffix)
  {
    var s := a + "/" + y;
    if |y| >= 4 {
      assert s[|s| - 4..] == y[|y| - 4..];
      if EndsWith(y, GitSuffix) {
        assert s[..|s| - 4] == a + "/" + y[..|y| - 4];
      }
    } else {
      assert s[|a|] == '/';
      if EndsWith(s, GitSuffix) {
        assert false;
      }
    }
  }

  /** Removing a trailing `.git` keeps any prefix that has no `.` in it. */
  lemma StripGitKeepsPrefix(p: string, s: string)
    requires StartsWith(s, p) && '.' !in p
    ensures StartsWith(StripSuffix(s, GitSuffix), p)
  {
    if EndsWith(s, GitSuffix) {
      assert s[|s| - 4] == '.';
      assert p == s[..|s| - 4][..|p|];
    }
  }

  /** Replacing the first `c` skips a prefix that contains no `c`. */
  lemma ReplaceCharAfter(p: string, rest: string, c: char, rep: string)
    requires c !in p
    ensures ReplaceFirst(p + rest, [c], rep) == p + ReplaceFirst(rest, [c], rep)
  {
    forall j | 0 <= j < |p| ensures !OccursAt(p + rest, [c], j) {
      assert (p + rest)[j] == p[j];
    }
    ReplaceFirstAfterPrefix(p, rest, [c], rep);
  }

  /** Replacing the first occurrence of a prefix replaces that prefix. */
  lemma ReplaceAtStart(p: string, rest: string, rep: string)
    ensures ReplaceFirst(p + rest, p, rep) == rep + rest
  {
    assert FirstOccurrence(p + rest, p, 0);
    assert (p + rest)[|p|..] == rest;
  }

  /** The SSH branch: `git@` followed by `rest` becomes `https://` followed
      by `rest` with its first `:` replaced by `/` and one `.git` removed. */
  lemma SshToHttps(rest: string)
    ensures StripSuffix(ReplaceFirst(ReplaceFirst(SshPrefix + rest, ":", "/"), SshPrefix, HttpsPrefix), GitSuffix)
            == HttpsPrefix + StripSuffix(ReplaceFirst(rest, ":", "/"), GitSuffix)
  {
    var z := ReplaceFirst(rest, ":", "/");
    ReplaceCharAfter(SshPrefix, rest, ':', "/");
    ReplaceAtStart(SshPrefix, z, HttpsPrefix);
    assert HttpsPrefix + z == "https:/" + "/" + z;
    StripGitAfterSlash("https:/", z);
  }

  /** Any `git@` remote yields `https://` followed by the remainder with its
      first `:` replaced by `/` and one trailing `.git` removed. */
  lemma SshRemoteRest(remote: string, rest: string)
    requires remote == SshPrefix + rest
    ensures ConvertToGitHubUrl(remote)
            == Some(HttpsPrefix + StripSuffix(ReplaceFirst(rest, ":", "/"), GitSuffix))
  {
    assert remote[0] == 'g';
    assert !StartsWith(remote, HttpsPrefix);
    assert StartsWith(remote, SshPrefix);
    assert remote[|SshPrefix|..] == rest;
    SshToHttps(rest);
  }

  /** An SSH remote `git@host:path`, with no `:` in `host`, normalises to
      `https://host/path` less one trailing `.git`. */
  lemma SshRemote(host: string, path: string)
    requires ':' !in host
    ensures ConvertToGitHubUrl(SshPrefix + host + ":" + path)
            == Some(HttpsPrefix + host + "/" + StripSuffix(path, GitSuffix))
  {
    var rest := host + (":" + path);
    var tail := StripSuffix(path, GitSuffix);
    assert StripSuffix(ReplaceFirst(rest, ":", "/"), GitSuffix) == host + "/" + tail by {
      ColonAfterHost(host, path);
      StripGitAfterSlash(host, path);
    }
    SshRemoteRest(SshPrefix + host + ":" + path, rest);
    Regroup(HttpsPrefix, host, "/", tail);
  }

  lemma Regroup(a: string, b: string, c: string, d: string)
    ensures a + (b + c + d) == a + b + c + d
  {
  }

  /** The first `:` of `host:path` is the one after `host`. */
  lemma ColonAfterHost(host: string, path: string)
    requires ':' !in host
    ensures ReplaceFirst(host + (":" + path), ":", "/") == host + "/" + path
  {
    ReplaceCharAfter(host, ":" + path, ':', "/");
    ReplaceAtStart(":", path, "/");
  }

  /** An HTTPS remote `https://host/path` normalises to `https://host/path`
      less one trailing `.git`, whatever the host. */
  lemma HttpsRemote(host: string, path: string)
    ensures ConvertToGitHubUrl(HttpsPrefix + host + "/" + path)
            == Some(HttpsPrefix + host + "/" + StripSuffix(path, GitSuffix))
  {
    assert StartsWith(HttpsPrefix + host + "/" + path, HttpsPrefix);
    StripGitAfterSlash(HttpsPrefix + host, path);
  }

  /** Appending `.git` to a path that does not end in it, or not, and then
      stripping one `.git`, gives the path back. */
  lemma StripOptionalGit(path: string, withGit: bool)
    requires !EndsWith(path, GitSuffix)
    ensures StripSuffix(path + (if withGit then GitSuffix else ""), GitSuffix) == path
  {
    var p := path + (if withGit then GitSuffix else "");
    if withGit {
      assert p[|p| - 4..] == GitSuffix;
      assert p[..|p| - 4] == path;
    } else {
      assert p == path;
    }
  }

  /** The SSH and HTTPS spellings of the same repository, each with or
      without `.git`, normalise to one and the same web URL. */
  lemma SameRepositorySameUrl(host: string, path: string, sshGit: bool, httpsGit: bool)
    requires ':' !in host
    requires !EndsWith(path, GitSuffix)
    ensures ConvertToGitHubUrl(SshPrefix + host + ":" + path + (if sshGit then GitSuffix else ""))
            == ConvertToGitHubUrl(HttpsPrefix + host + "/" + path + (if httpsGit then GitSuffix else ""))
            == Some(HttpsPrefix + host + "/" + path)
  {
    var sshPath := path + (if sshGit then GitSuffix else "");
    var httpsPath := path + (if httpsGit then GitSuffix else "");
    assert ConvertToGitHubUrl(SshPrefix + host + ":" + sshPath) == Some(HttpsPrefix + host + "/" + path) by {
      StripOptionalGit(path, sshGit);
      SshRemote(host, sshPath);
    }
    assert ConvertToGitHubUrl(HttpsPrefix + host + "/" + httpsPath) == Some(HttpsPrefix + host + "/" + path) by {
      StripOptionalGit(path, httpsGit);
      HttpsRemote(host, httpsPath);
    }
    assert SshPrefix + host + ":" + path + (if sshGit then GitSuffix else "") == SshPrefix + host + ":" + sshPath;
    assert HttpsPrefix + host + "/" + path + (if httpsGit then GitSuffix else "") == HttpsPrefix + host + "/" + httpsPath;
  }

  /** A normalised URL that no longer ends in `.git` is left unchanged by a
      second normalisation. */
  lemma NormalisedIsFixedPoint(remote: string)
    requires ConvertToGitHubUrl(remote).Some?
    requires !EndsWith(ConvertToGitHubUrl(remote).value, GitSuffix)
    ensures ConvertToGitHubUrl(ConvertToGitHubUrl(remote).value) == ConvertToGitHubUrl(remote)
  {
  }

  /** A repository path that itself ends in `.git` loses only one `.git`
      per normalisation, so normalising is not idempotent in general. */
  lemma OneSuffixPerPass(host: string, path: string)
    ensures ConvertToGitHubUrl(HttpsPrefix + host + "/" + path + GitSuffix + GitSuffix)
            == Some(HttpsPrefix + host + "/" + path + GitSuffix)
    ensures ConvertToGitHubUrl(HttpsPrefix + host + "/" + path + GitSuffix)
            == Some(HttpsPrefix + host + "/" + path)
  {
    assert ConvertToGitHubUrl(HttpsPrefix + host + "/" + (path + GitSuffix + GitSuffix))
           == Some(HttpsPrefix + host + "/" + (path + GitSuffix)) by {
      StripAppendedGit(path + GitSuffix);
      HttpsRemote(host, path + GitSuffix + GitSuffix);
    }
    assert ConvertToGitHubUrl(HttpsPrefix + host + "/" + (path + GitSuffix))
           == Some(HttpsPrefix + host + "/" + path) by {
      StripAppendedGit(path);
      HttpsRemote(host, path + GitSuffix);
    }
    assert HttpsPrefix + host + "/" + (path + GitSuffix + GitSuffix)
        == HttpsPrefix + host + "/" + path + GitSuffix + GitSuffix;
    assert HttpsPrefix + host + "/" + (path + GitSuffix)
        == HttpsPrefix + host + "/" + path + GitSuffix;
  }

  lemma StripAppendedGit(p: string)
    ensures StripSuffix(p + GitSuffix, GitSuffix) == p
  {
    assert (p + GitSuffix)[|p|..] == GitSuffix;
    assert (p + GitSuffix)[..|p|] == p;
  }

  /** `git@<host>:<path>.git` converts to `https://<host>/<path>`. */
  lemma SshRemoteWithGit(host: string, path: string)
    requires ':' !in host
    ensures ConvertToGitHubUrl(SshPrefix + host + ":" + path + GitSuffix) == Some(HttpsPrefix + host + "/" + path)
  {
    assert SshPrefix + host + ":" + path + GitSuffix == SshPrefix + host + ":" + (path + GitSuffix);
    SshRemote(host, path + GitSuffix);
    StripAppendedGit(path);
  }

  /** Remotes in neither accepted form are refused, including plain
      `http://`, `ssh://` and the empty string. */
  lemma RefusedRemotes()
    ensures ConvertToGitHubUrl("http://github.com/o/r") == None
    ensures ConvertToGitHubUrl("ssh://git@github.com/o/r.git") == None
    ensures ConvertToGitHubUrl("") == None
  {
    assert ConvertToGitHubUrl("http://github.com/o/r") == None by {
      var u := "http://github.com/o/r";
      assert u[4] == ':';
      assert u[0] == 'h';
    }
    assert ConvertToGitHubUrl("ssh://git@github.com/o/r.git") == None by {
      var u := "ssh://git@github.com/o/r.git";
      assert u[0] == 's';
    }
  }
}

=== FILE: text.dfy ===
/** String primitives with the JavaScript semantics the plugin relies on:
    `startsWith`, a regular expression anchored with `$`, `replace` with a
    string pattern, the `\s` and `.` character classes, and `trim`. */
module Text {
  import opened Wrappers

  /** A line terminator of ECMAScript: the characters the regular-expression
      `.` does not match. */
  predicate IsLineTerminator(c: char) {
    c == '\n' || c == '\r' || c == '\U{2028}' || c == '\U{2029}'
  }

  /** ECMAScript WhiteSpace or LineTerminator: exactly the characters `\s`
      matches and `String.prototype.trim` strips (the space separators are
      those of the Unicode category Zs). */
  predicate IsSpace(c: char) {
    || IsLineTerminator(c)
    || c == '\t' || c == '\U{000B}' || c == '\U{000C}' || c == ' '
    || c == '\U{00A0}' || c == '\U{1680}' || ('\U{2000}' <= c <= '\U{200A}')
    || c == '\U{202F}' || c == '\U{205F}' || c == '\U{3000}' || c == '\U{FEFF}'
  }

  ghost predicate AllSpace(s: string) {
    forall k :: 0 <= k < |s| ==> IsSpace(s[k])
  }

  ghost predicate NoLineTerminator(s: string) {
    forall k :: 0 <= k < |s| ==> !IsLineTerminator(s[k])
  }

  /** Neither the first nor the last character of `s` is white space. */
  ghost predicate Trimmed(s: string) {
    s == [] || (!IsSpace(s[0]) && !IsSpace(s[|s| - 1]))
  }

  /** `str.startsWith(prefix)`. */
  predicate StartsWith(s: string, prefix: string) {
    prefix <= s
  }

  /** `suffix` ends `s`, which is what a regular expression `suffix$` without
      the `m` flag tests. */
  predicate EndsWith(s: string, suffix: string) {
    |suffix| <= |s| && s[|s| - |suffix|..] == suffix
  }

  /** `pat` occurs in `s` starting at index `i`. */
  predicate OccursAt(s: string, pat: string, i: int) {
    0 <= i && i + |pat| <= |s| && s[i..i + |pat|] == pat
  }

  /** `i` is the leftmost occurrence of `pat` in `s`. */
  ghost predicate FirstOccurrence(s: string, pat: string, i: int) {
    OccursAt(s, pat, i) && forall j :: 0 <= j < i ==> !OccursAt(s, pat, j)
  }

  /** The leftmost index at or after `from` where `pat` occurs, as a
      left-to-right search for a literal finds it. */
  function IndexOf(s: string, pat: string, from: nat): (r: Option<nat>)
    ensures r.Some? ==> from <= r.value && OccursAt(s, pat, r.value)
    ensures r.Some? ==> forall j :: from <= j < r.value ==> !OccursAt(s, pat, j)
    ensures r.None? ==> forall j :: from <= j ==> !OccursAt(s, pat, j)
    decreases |s| - from
  {
    if |s| < from + |pat| then None
    else if OccursAt(s, pat, from) then Some(from)
    else IndexOf(s, pat, from + 1)
  }

  /** `str.replace(pat, rep)` with a string pattern and a replacement holding
      no `$` (JavaScript expands `$&`, `$$` and the like; this splices `rep`
      in literally): only the leftmost occurrence is replaced, and `s` is
      returned unchanged when there is none. */
  function ReplaceFirst(s: string, pat: string, rep: string): (r: string)
    ensures (forall j :: !OccursAt(s, pat, j)) ==> r == s
    ensures forall i {:trigger FirstOccurrence(s, pat, i)} :: FirstOccurrence(s, pat, i) ==> r == s[..i] + rep + s[i + |pat|..]
  {
    match IndexOf(s, pat, 0)
    case None => s
    case Some(i) => s[..i] + rep + s[i + |pat|..]
  }

  /** The search from the start finds the first occurrence. */
  lemma IndexOfFinds(s: string, pat: string, i: nat)
    requires FirstOccurrence(s, pat, i)
    ensures IndexOf(s, pat, 0) == Some(i)
  {
  }

  /** An occurrence in `rest` is an occurrence in `p + rest`, shifted by `|p|`. */
  lemma OccursShift(p: string, rest: string, pat: string, j: int)
    requires 0 <= j
    ensures OccursAt(p + rest, pat, |p| + j) <==> OccursAt(rest, pat, j)
  {
    if j + |pat| <= |rest| {
      assert (p + rest)[|p| + j..|p| + j + |pat|] == rest[j..j + |pat|];
    }
  }

  /** When no occurrence starts inside `p`, searching `p + rest` finds the
      first occurrence in `rest`, shifted by `|p|`. */
  lemma IndexOfAfterPrefix(p: string, rest: string, pat: string)
    requires forall j :: 0 <= j < |p| ==> !OccursAt(p + rest, pat, j)
    ensures IndexOf(rest, pat, 0).None? ==> IndexOf(p + rest, pat, 0).None?
    ensures IndexOf(rest, pat, 0).Some? ==>
              IndexOf(p + rest, pat, 0) == Some(|p| + IndexOf(rest, pat, 0).value)
  {
    match IndexOf(rest, pat, 0) {
      case None => NoneAfterPrefix(p, rest, pat);
      case Some(i) => FoundAfterPrefix(p, rest, pat, i);
    }
  }

  lemma NoneAfterPrefix(p: string, rest: string, pat: string)
    requires forall j :: 0 <= j < |p| ==> !OccursAt(p + rest, pat, j)
    requires IndexOf(rest, pat, 0).None?
    ensures IndexOf(p + rest, pat, 0).None?
  {
    forall j | 0 <= j ensures !OccursAt(p + rest, pat, j) {
      if j >= |p| { OccursShift(p, rest, pat, j - |p|); }
    }
  }

  lemma FoundAfterPrefix(p: string, rest: string, pat: string, i: nat)
    requires forall j :: 0 <= j < |p| ==> !OccursAt(p + rest, pat, j)
    requires IndexOf(rest, pat, 0) == Some(i)
    ensures IndexOf(p + rest, pat, 0) == Some(|p| + i)
  {
    FirstOccurrenceAfterPrefix(p, rest, pat, i);
    IndexOfFinds(p + rest, pat, |p| + i);
  }

  lemma FirstOccurrenceAfterPrefix(p: string, rest: string, pat: string, i: nat)
    requires forall j :: 0 <= j < |p| ==> !OccursAt(p + rest, pat, j)
    requires FirstOccurrence(rest, pat, i)
    ensures FirstOccurrence(p + rest, pat, |p| + i)
  {
    OccursShift(p, rest, pat, i);
    forall j | |p| <= j < |p| + i ensures !OccursAt(p + rest, pat, j) {
      OccursShift(p, rest, pat, j - |p|);
    }
  }

  /** The replacement `ReplaceFirst` makes once the search has found `k`. */
  lemma ReplaceFirstAt(s: string, pat: string, rep: string, k: nat)
    requires FirstOccurrence(s, pat, k)
    ensures ReplaceFirst(s, pat, rep) == s[..k] + rep + s[k + |pat|..]
  {
  }

  /** When no occurrence starts inside `p`, replacing the first occurrence
      leaves `p` alone. */
  lemma ReplaceFirstAfterPrefix(p: string, rest: string, pat: string, rep: string)
    requires forall j :: 0 <= j < |p| ==> !OccursAt(p + rest, pat, j)
    ensures ReplaceFirst(p + rest, pat, rep) == p + ReplaceFirst(rest, pat, rep)
  {
    match IndexOf(rest, pat, 0)
    case None => IndexOfAfterPrefix(p, rest, pat);
    case Some(i) => ReplaceFirstAfterPrefixFound(p, rest, pat, rep, i);
  }

  lemma ReplaceFirstAfterPrefixFound(p: string, rest: string, pat: string, rep: string, i: nat)
    requires forall j :: 0 <= j < |p| ==> !OccursAt(p + rest, pat, j)
    requires FirstOccurrence(rest, pat, i)
    ensures ReplaceFirst(p + rest, pat, rep) == p + ReplaceFirst(rest, pat, rep)
  {
    FirstOccurrenceAfterPrefix(p, rest, pat, i);
    ReplaceShiftedOccurrence(p + rest, p, rest, pat, rep, i);
    ReplaceFirstAt(rest, pat, rep, i);
  }

  /** The replacement in `s == p + rest` happens at the first occurrence in
      `rest`, shifted by `|p|`, and leaves `p` in front. */
  lemma ReplaceShiftedOccurrence(s: string, p: string, rest: string, pat: string, rep: string, i: nat)
    requires s == p + rest
    requires FirstOccurrence(s, pat, |p| + i) && i + |pat| <= |rest|
    ensures ReplaceFirst(s, pat, rep) == p + (rest[..i] + rep + rest[i + |pat|..])
  {
    ReplaceFirstAt(s, pat, rep, |p| + i);
    SpliceAfterPrefix(ReplaceFirst(s, pat, rep), s, p, rest, i, |pat|, rep);
  }

  /** Splicing `rep` into `s == p + rest` at a position inside `rest`. */
  lemma SpliceAfterPrefix(r: string, s: string, p: string, rest: string, i: nat, n: nat, rep: string)
    requires s == p + rest && i + n <= |rest|
    requires r == s[..|p| + i] + rep + s[|p| + i + n..]
    ensures r == p + (rest[..i] + rep + rest[i + n..])
  {
    assert s[..|p| + i] == p + rest[..i];
    assert s[|p| + i + n..] == rest[i + n..];
  }


  /** `str.replace(/suffix$/, '')` for a literal `suffix`: removes one
      trailing occurrence, if any. */
  function StripSuffix(s: string, suffix: string): (r: string)
    ensures EndsWith(s, suffix) ==> r + suffix == s
    ensures !EndsWith(s, suffix) ==> r == s
  {
    if EndsWith(s, suffix) then s[..|s| - |suffix|] else s
  }

  /** The end of the run of white space starting at `i`: the greedy `\s*`. */
  function SkipSpaces(s: string, i: nat): (j: nat)
    requires i <= |s|
    ensures i <= j <= |s|
    ensures forall k :: i <= k < j ==> IsSpace(s[k])
    ensures j == |s| || !IsSpace(s[j])
    decreases |s| - i
  {
    if i < |s| && IsSpace(s[i]) then SkipSpaces(s, i + 1) else i
  }

  /** The end of the line starting at `i`: the greedy `.*`. */
  function LineEnd(s: string, i: nat): (j: nat)
    requires i <= |s|
    ensures i <= j <= |s|
    ensures forall k :: i <= k < j ==> !IsLineTerminator(s[k])
    ensures j == |s| || IsLineTerminator(s[j])
    decreases |s| - i
  {
    if i < |s| && !IsLineTerminator(s[i]) then LineEnd(s, i + 1) else i
  }

  /** `SkipSpaces` stops at the first character that is not white space. */
  lemma SkipSpacesAt(s: string, i: nat, j: nat)
    requires i <= j <= |s|
    requires forall k :: i <= k < j ==> IsSpace(s[k])
    requires j == |s| || !IsSpace(s[j])
    ensures SkipSpaces(s, i) == j
  {
  }

  /** `LineEnd` stops at the first line terminator. */
  lemma LineEndAt(s: string, i: nat, j: nat)
    requires i <= j <= |s|
    requires forall k :: i <= k < j ==> !IsLineTerminator(s[k])
    requires j == |s| || IsLineTerminator(s[j])
    ensures LineEnd(s, i) == j
  {
  }

  /** The start of the run of white space that ends at `j`. */
  function SpaceRunStart(s: string, j: nat): (i: nat)
    requires j <= |s|
    ensures i <= j
    ensures forall k :: i <= k < j ==> IsSpace(s[k])
    ensures i == 0 || !IsSpace(s[i - 1])
  {
    if 0 < j && IsSpace(s[j - 1]) then SpaceRunStart(s, j - 1) else j
  }

  /** `r` is `s` with the white space in front of index `i` and after
      `r` removed, and nothing more. */
  ghost predicate TrimmedAt(s: string, r: string, i: int) {
    && 0 <= i && i + |r| <= |s|
    && s[i..i + |r|] == r
    && AllSpace(s[..i])
    && AllSpace(s[i + |r|..])
    && Trimmed(r)
  }

  /** `str.trim()`: leading and then trailing white space removed. */
  function Trim(s: string): (r: string)
    ensures exists i :: TrimmedAt(s, r, i)
  {
    var i := SkipSpaces(s, 0);
    var t := s[i..];
    var r := t[..SpaceRunStart(t, |t|)];
    assert TrimmedAt(s, r, i) by {
      assert s[i..i + |r|] == r;
      assert s[i + |r|..] == t[|r|..];
      if r != [] {
        assert !IsSpace(r[0]) by {
          assert r[0] == s[i];
        }
      }
    }
    r
  }

  /** Trimming white space around a trimmed string gives that string back:
      the result of `trim` is determined by its characterisation. */
  lemma TrimPadded(a: string, b: string, c: string)
    requires AllSpace(a) && AllSpace(c) && Trimmed(b)
    ensures Trim(a + b + c) == b
  {
    var s := a + b + c;
    var i := SkipSpaces(s, 0);
    if b == [] {
      assert AllSpace(s) by {
        forall k | 0 <= k < |s| ensures IsSpace(s[k]) {
          if k < |a| { assert s[k] == a[k]; } else { assert s[k] == c[k - |a|]; }
        }
      }
      assert i == |s|;
    } else {
      assert s[|a|] == b[0];
      assert i == |a|;
      var t := s[i..];
      assert t == b + c;
      var j := SpaceRunStart(t, |t|);
      assert t[|b| - 1] == b[|b| - 1];
      assert j == |b|;
      assert t[..j] == b;
    }
  }

  /** Any string that `TrimmedAt` relates to `s` is `Trim(s)`. */
  lemma TrimUnique(s: string, r: string, i: int)
    requires TrimmedAt(s, r, i)
    ensures Trim(s) == r
  {
    assert s == s[..i] + r + s[i + |r|..];
    TrimPadded(s[..i], r, s[i + |r|..]);
  }

  /** Trimming is idempotent. */
  lemma TrimIdempotent(s: string)
    ensures Trim(Trim(s)) == Trim(s)
  {
    var r := Trim(s);
    assert r == [] + r + [];
    TrimPadded([], r, []);
  }
}

=== FILE: wrappers.dfy ===
/** The `Option` type that stands in for the source's `string | null` results. */
module Wrappers {

  /** `None` models a JavaScript `null`; `Some(v)` a present value. */
  datatype Option<+T> = None | Some(value: T)
}
